=== FILE: README.md ===
# go-plugin: the binding layer in front of libffi and the dynamic loader

go-plugin lets a Go program open a C shared library at run time and bind its
exported symbols to Go variables. A data symbol is copied into the variable.
A function symbol is wrapped in a Go function that calls it through libffi.
The library does this work through cgo. What can be modelled is the small,
deterministic layer in front of those foreign calls:

- **Kinds and descriptors** (`Ffi.Validate`, `Ffi.TypeFrom`, the `Types` table).
  These decide which Go kinds may cross the boundary and which libffi type
  descriptor each one maps to.
- **Call interfaces** (`Ffi.New`, `Ffi.NewFrom`, `Ffi.Release`, `Ffi.Call`).
  These check a signature in a fixed order and build the ordered array of
  argument descriptors. They turn libffi's preparation status into an error,
  and they build the argument-pointer array handed to `ffi_call`.
- **Argument slots** (`ArgSlots`). A call makes one owned copy of each
  argument value, in order, plus a C array whose slot i points at copy i.
- **Symbol binding** (`Plugin.LookupC`). This checks the destination pointer
  and then dispatches on the destination's kind. Integer destinations read
  the symbol's bytes at their own width. An `unsafe.Pointer` destination
  takes the address itself. A function destination receives a bound function,
  whose calls go through `Plugin.InvokeAsWritten`.

The foreign parts of the system appear only as parameters:

- `ffi_prep_cif` is an oracle `Ffi.Prep` from the request it receives
  (`Libffi.CifRequest`) to a `Status`.
- `ffi_call` is modelled by the request it receives (`Libffi.CallRequest`).
  The value the native code leaves in the return slot comes from an oracle,
  `Plugin.Native`.
- `dlsym` is the `sym` argument of `LookupC`: an address or an error.
- Native memory is an oracle `Memory.Mem` that gives a byte for each
  address. Loads are little-endian.
- `Kinds.Arch` fixes the width of `int`, `uint`, `uintptr` and pointers.

Panics are values: `Result<_, Ffi.Panic>`.

Some behaviour of the code is easy to miss, and the model keeps it as
written:

- `validateReflectType` (internal/ffi/ffi.go:157-167) accepts only the ten
  integer kinds other than `uintptr`, plus the two float kinds. So a function
  signature with a pointer or string parameter is rejected.
- `NewFrom`'s result loop reports "too many return types" only at index 2
  (`i > 1`, internal/ffi/ffi.go:101-104). So a two-result signature passes
  with a nil return descriptor (`FfiProperties.NewFromWithoutReturnDescriptor`).
  `LookupC` binds such a function, but the `MakeFunc` body then returns an
  empty list (`PluginProperties.TwoResultsReturnNothing`). reflect checks
  the number of values a `MakeFunc` body returns against the signature, so
  every call of the bound function panics in reflect and none returns.
- A signature with no result also leaves the return descriptor nil
  (internal/ffi/ffi.go:112-114). `New` takes its return descriptor from
  the caller (internal/ffi/ffi.go:67-68), so it leaves it nil only when the
  caller passes the zero `Type{}`, whose descriptor is nil. What libffi does with a nil
  return descriptor is decided by the `prep` oracle.
- `New` and `NewFrom` allocate the argument array with `malloc`
  (internal/ffi/ffi.go:75, 119) and, when preparation fails, return
  `nil, err` (internal/ffi/ffi.go:82, 127) without freeing it. No call
  interface holds the array then, so nothing can release it. The model
  returns that array as the `lost` part of `Ffi.Built`
  (`FfiProperties.NewArrayFreedOrLost`).

## Model

| member | source | states |
|---|---|---|
| `Ffi.StatusString` | internal/ffi/ffi.go:46-56 | Exactly `Ok`, `BadTypedef` and `BadABI` have a name; every other code panics with "ffi: unreachable" |
| `Ffi.StatusStringRoundTrip` | internal/ffi/ffi.go:46-56 | Each name reads back as its own code through `ParseStatus` |
| `Ffi.StatusNamesDistinct` | internal/ffi/ffi.go:46-56 | Two codes get the same name only if they are the same code, so the three names are distinct |
| `Ffi.Validate` | internal/ffi/ffi.go:157-167 | Accepts exactly the five signed kinds, the five unsigned kinds other than `uintptr`, `Float32` and `Float64`; every other kind gets an invalid-type-kind error naming that kind |
| `Ffi.TypeFrom` | internal/ffi/ffi.go:169-198 | Is defined (does not panic) exactly on the kinds `Validate` accepts; it panics with the invalid-kind error otherwise |
| `Ffi.TypeFromStandsFor` | internal/ffi/ffi.go:169-198 | The table entry `TypeFrom` picks for an accepted kind is the entry that stands for that kind (`Int` for `int`, `Float64` for `float64`, ...) |
| `Ffi.TypeFromInverse` | internal/ffi/ffi.go:169-198 | Any table entry that stands for kind k is the one `TypeFrom` picks for k, so distinct kinds get distinct entries |
| `Ffi.TypeFromInTable` | internal/ffi/ffi.go:169-198 | Every descriptor `TypeFrom` returns is an entry of the package's descriptor table |
| `Ffi.NewReturnFrom` | internal/ffi/type.go:50-56 | Panics for every kind `Validate` rejects and otherwise returns nil |
| `Ffi.New` | internal/ffi/ffi.go:66-86 | The argument array has one entry per argument, entry i being argument i's descriptor, and is nil for no arguments; the return descriptor is the given one; an error and no interface exactly when preparation does not report `Ok`, and then a non-empty argument array is lost rather than freed; the interface's prepared state is the request handed to `ffi_prep_cif`, covering exactly its return descriptor and argument array |
| `Ffi.FirstInvalid` | internal/ffi/ffi.go:94-100 | Finds the first parameter kind `Validate` rejects; none exactly when all are accepted |
| `Ffi.CheckResults` | internal/ffi/ffi.go:101-110 | Results 0 and 1 are validated in order; a third result is "too many" only once the first two pass; two valid results pass |
| `Ffi.ParamDescriptors` | internal/ffi/ffi.go:116-124 | The argument array of `NewFrom` lists the descriptor of parameter i at position i |
| `Ffi.NewFrom` | internal/ffi/ffi.go:88-136 | Rejects every non-function kind; success implies all parameters and at most two results are valid; a return descriptor is set exactly for one result; the argument array is ordered and nil for no parameters; only a failed preparation loses an argument array, and it does whenever there are parameters; the interface's prepared state is the request handed to `ffi_prep_cif`, covering exactly its return descriptor and argument array |
| `Ffi.Release` | internal/ffi/ffi.go:138-141 | Hands the argument array to `free` and leaves it nil; the prepared state and the return descriptor are kept |
| `Ffi.Call` | internal/ffi/ffi.go:143-155 | The argument-pointer array is nil for no arguments, and otherwise has one entry per argument, entry i being argument i |
| `FfiProperties.NewFromParamErrorWins` | internal/ffi/ffi.go:94-110 | The first invalid parameter is reported whatever the results are |
| `FfiProperties.NewFromInvalidResult` | internal/ffi/ffi.go:101-110 | With valid parameters, the first invalid result among results 0 and 1 is reported |
| `FfiProperties.NewFromTooManyResults` | internal/ffi/ffi.go:101-104 | With valid parameters and two valid first results, a third result is rejected as too many, even when its own kind is invalid |
| `FfiProperties.NewFromWithoutReturnDescriptor` | internal/ffi/ffi.go:112-129 | A valid signature with zero or two results gets a nil return descriptor, and only preparation decides success; a failure reports the status preparation gave for the nil-return request over the parameter descriptors |
| `FfiProperties.NewFromAgreesWithNew` | internal/ffi/ffi.go:88-129 | For a valid one-result signature, `NewFrom` builds exactly what `New` builds from the descriptors of the result and parameters |
| `FfiProperties.NewArrayFreedOrLost` | internal/ffi/ffi.go:72-86 | Every argument array `New` allocates either is held by the new interface, and `Release` frees it, or is lost on a failed preparation |
| `FfiProperties.ReleaseTwice` | internal/ffi/ffi.go:138-141 | A second release hands nil to `free` and changes nothing |
| `Types.TableShape` | internal/ffi/type.go:21-48 | The table has 20 entries, from `void` to `void*`, and they are pairwise distinct |
| `Types.NamesDistinct` | internal/ffi/type.go:21-48 | No two table entries share a C spelling |
| `ArgSlots.NewArgsFrom` | internal/ffi/type.go:75-91 | No values give the zero `Args` (nil array, no copies); n values give n copies equal to the inputs, and slot i designates the copy of value i, with distinct slots |
| `ArgSlots.C` | internal/ffi/type.go:63-68 | Nil when there is no slot array, and otherwise the first slot only |
| `ArgSlots.FirstSlotIsFirstCopy` | internal/ffi/type.go:63-68 | For fresh slots, `C` designates the copy of the first value, and is nil when there are no values |
| `ArgSlots.Release` | internal/ffi/type.go:70-73 | Hands the slot array to `free` and leaves it nil, keeping the copies |
| `ArgSlots.ReleaseTwice` | internal/ffi/type.go:70-73 | A second release hands nil to `free` and changes nothing |
| `Memory.LoadLE` | plugin.go:69-90 | A load of n bytes yields a value below 256^n |
| `Memory.LoadEncoded` | plugin.go:69-90 | Loading the little-endian encoding of x gives x back |
| `Memory.ToSigned` | plugin.go:69-78 | A signed read of n bytes lies in the two's-complement range and has the same bit pattern |
| `Memory.Wrap` | plugin.go:69-90 | A Go integer conversion to n bytes lands in the signed or unsigned n-byte range and keeps the value's n low bytes: result and value agree modulo 256^n |
| `Memory.SignedBitsRoundTrip` | plugin.go:69-78 | The signed reading of an in-range value's bit pattern is the value |
| `Memory.WrapKeeps` | plugin.go:69-90 | Converting a value that already fits changes nothing |
| `Plugin.ReadInteger` | plugin.go:69-90 | An integer destination's value, read at its own width and widened through `int64` or `uint64`, lies in its kind's range |
| `Plugin.LookupC` | plugin.go:44-133 | A failed symbol lookup is returned unchanged, before the destination is inspected; a nil interface or any other non-pointer gives `errNotPtr`, a nil pointer `errNilPtr`, an `unsafe.Pointer` its own error; success implies a non-nil pointer destination. The dispatch on the destination's kind (`Plugin.Store`, plugin.go:68-130) is stated branch by branch by the `PluginProperties` destination lemmas below |
| `Plugin.InvokeAsWritten` | plugin.go:111-124 | Each call builds fresh slots from its arguments and frees exactly that slot array; it passes `cargs.C()` as the only argument pointer; the return slot is non-nil, and one value is returned, exactly when the signature has one result |
| `Plugin.Invoke` | plugin.go:111-124 | The corrected call passes one pointer per argument, pointer i designating the copy of argument i, and a nil array for no arguments; slots and results are handled as in the code |
| `PluginProperties.IntegerDestination` | plugin.go:69-90 | An integer or `uintptr` destination receives a value of its own kind, in that kind's range, and the call succeeds |
| `PluginProperties.IntegerDestinationRoundTrip` | plugin.go:69-90 | A symbol holding the encoding of an in-range value v binds exactly v |
| `PluginProperties.ReadIntegerRoundTrip` | plugin.go:69-90 | Reading back the encoding of an in-range value of an integer kind gives the value |
| `PluginProperties.UnsafePointerDestination` | plugin.go:103-104 | An `unsafe.Pointer` destination receives the symbol's address itself, whatever memory holds |
| `PluginProperties.OtherKindsRejected` | plugin.go:128-129 | Bool, struct, slice, map, chan, array, interface, invalid and pointer-to-pointer destinations get the invalid-type error naming the argument's type, and nothing is stored |
| `PluginProperties.FuncDestination` | plugin.go:105-126 | A `NewFrom` error is passed on and nothing is stored; otherwise the stored function is bound to the new interface, the symbol's address and the destination's signature |
| `PluginProperties.AsWrittenPassesOneSlot` | plugin.go:115-122 | As written, `ffi_call` gets a one-entry argument array: nil for no arguments, otherwise the first copy's address only |
| `PluginProperties.AsWrittenDropsSecondArgument` | plugin.go:115-122 | Binding `func(int32, int32) int32` succeeds with a two-entry descriptor array, and an interface prepared for two arguments, yet a call as written hands `ffi_call` one argument pointer |
| `PluginProperties.OneArgumentCallsAgree` | plugin.go:115-122 | For one argument, the call as written and the corrected call make the same `ffi_call` request, so a one-argument binding cannot show the difference |
| `PluginProperties.InvokeMatchesArity` | plugin.go:105-124 | After a successful binding, a corrected call with one value per parameter passes exactly as many pointers as the interface has argument descriptors, each designating its own argument |
| `PluginProperties.TwoResultsReturnNothing` | plugin.go:112-123 | A two-result signature binds, and the `MakeFunc` body returns an empty list for every call, so every call of the bound function panics in reflect |

## Findings

| source | as written | input that shows it | evidently intended | confidence | as-written member | corrected member |
|---|---|---|---|---|---|---|
| plugin.go:115-122 | The bound function passes `cargs.C()`, which is the first slot's content, as the single variadic argument of `cif.Call`. So `ffi_call` receives a one-entry argument array whatever the arity. | Bind `func(int32, int32) int32` and call it with (1, 2). The interface describes two arguments, but the argument array has one entry, and libffi reads past it for the second argument. | Pass the whole slot array: one pointer per argument, in order. | not executed; high (the repository's tests bind only one-argument functions) | `Plugin.InvokeAsWritten`, `PluginProperties.AsWrittenDropsSecondArgument` | `Plugin.Invoke`, `PluginProperties.InvokeMatchesArity` |

## Left out

- The dynamic loader (internal/dl/dl.go) is not modelled. `dlsym` is the `sym` argument of `LookupC`: an address or an error that is passed on unchanged. `Plugin.Open`, `Plugin.Close` and the unimplemented `Plugin.Lookup` are plumbing around it.
- The bodies of `ffi_prep_cif` and `ffi_call` are libffi's, so register and stack placement is foreign. Preparation is the `prep` oracle. A call is the request it makes, plus the `native` oracle for the value written to the return slot.
- `malloc` and `free` are not modelled as memory. Ownership of an array is a nullable field, and release returns the block handed to `free`. The argument array that `New` and `NewFrom` lose on a failed preparation is reported in `Ffi.Built`; a version that frees it is not modelled.
- The `fmt.Printf("err: kind=%v\n", ...)` that `LookupC` writes to standard output before returning `errNotPtr` (plugin.go:64) is not modelled; the model returns only the error.
- libffi's `ffi.h` defines `ffi_type_uchar`, `ffi_type_schar`, `ffi_type_ushort`, `ffi_type_sshort`, `ffi_type_uint`, `ffi_type_sint`, `ffi_type_ulong` and `ffi_type_slong` as aliases of the fixed-width descriptors. `Libffi.Descriptor` keeps them as separate names, so no property of the model rests on descriptors being distinct: the table's entries and `Ffi.KindFor` are compared as whole entries.
- Float and complex destinations are read at their width and kept as opaque bit patterns. The `float32` to `float64` widening and `complex64` handling of `SetFloat` and `SetComplex` are floating-point operations outside the model.
- A string destination records the C-string address it reads. The conversion done by `C.GoString` is not modelled.
- PluginProperties.TwoResultsReturnNothing: the panic reflect raises when a `MakeFunc` body returns fewer values than the signature has results is not modelled; the lemma states only that the body returns an empty list.
- Ffi.New: the zero `Type{}`, whose descriptor is nil, is not modelled: `Types.Type` always carries a descriptor. So `New` with a zero return type (a nil return descriptor handed to `ffi_prep_cif`, internal/ffi/ffi.go:67-68 and 80) or with a zero type among its arguments (a nil entry in the argument array, internal/ffi/ffi.go:76-77) is outside the model.
- The `native` oracle may return any `Value` for the return slot. In the program the slot holds a value of the result type `ft.Out(0)` (plugin.go:119); no property here depends on the returned value's kind.
- Reflection (`reflect.MakeFunc`, `Value.Set`, the `%T` and `%v` formatting) is replaced by the `GoType`, `Sig` and `Value` datatypes. Error texts are not modelled, except the names `Status.String` gives.
- For an unknown status, the error message of a failed preparation formats the status with `%s`. The panic of `Status.String` is then caught by `fmt`. The model keeps only the status code in `PrepareFailed`.
- Descriptor sizes and alignments belong to libffi and are not modelled. So is the difference between Go's 64-bit `int` and the C `int` descriptor it maps to.
- The indices converted with `C.int(i)` are not wrapped. Arities of 2^31 or more are not considered.
- Concurrency is not modelled. Every operation is a pure function.
- Little-endian byte order is assumed for memory reads.
- The commented-out tests in internal/ffi/ffi_test.go target an API that no longer exists.
- ArgSlots.NewArgsFrom: the copies are addressed relative to their own `Args` value (`ArgCopy(i)`). So the contract states that the copies are distinct and equal to the inputs. It does not state that they are fresh with respect to allocations made elsewhere.

=== FILE: args.dfy ===
/** Per-call argument slots (the `Args` type of the ffi package): an owned
    copy of every argument value, and a C array whose slot i holds the
    address of the copy of argument i. */
module ArgSlots {
  import opened Wrappers
  import opened Memory

  /** A malloc'd slot array; it is only ever allocated for at least one argument. */
  type SlotArray = s: seq<Addr> | |s| > 0 witness [Nil]

  /** The slot array `c` (nil when there is none) and the owned copies `args`,
      copy i living at `ArgCopy(i)`. */
  datatype Args<V> = Args(c: Option<SlotArray>, args: seq<V>)

  /** The value a pointer designates among the copies of `a`, if it designates one. */
  function Deref<V>(a: Args<V>, p: Addr): Option<V> {
    match p
    case ArgCopy(i) => if i < |a.args| then Some(a.args[i]) else None
    case _ => None
  }

  /** `NewArgsFrom`: no values give the zero `Args`; otherwise one fresh copy
      per value, and slot i points at the copy of value i. */
  function NewArgsFrom<V>(vals: seq<V>): (r: Args<V>)
    ensures |vals| == 0 ==> r == Args(None, [])
    ensures |vals| > 0 ==> r.c.Some? && |r.c.value| == |vals|
    ensures r.args == vals
    ensures r.c.Some? ==> forall i :: 0 <= i < |vals| ==> Deref(r, r.c.value[i]) == Some(vals[i])
    ensures r.c.Some? ==> forall i, j :: 0 <= i < j < |vals| ==> r.c.value[i] != r.c.value[j]
  {
    var n := |vals|;
    if n <= 0 then Args(None, [])
    else Args(Some(seq(n, (i: nat) => ArgCopy(i))), vals)
  }

  /** `Args.C`: nil without a slot array, otherwise the content of its first
      slot only, which is the address of the first copy. */
  function C<V>(a: Args<V>): (p: Addr)
    ensures a.c.None? ==> p == Nil
    ensures a.c.Some? ==> p == a.c.value[0]
  {
    if a.c.Some? then a.c.value[0] else Nil
  }

  /** The whole slot array, as a list of pointers (empty when nil). */
  function Slots<V>(a: Args<V>): seq<Addr> {
    if a.c.Some? then a.c.value else []
  }

  /** `Args.Release`: frees the slot array (a nil array frees nothing) and
      leaves it nil; the copies are untouched. The result pairs the released
      `Args` with the block handed to `free`. */
  function Release<V>(a: Args<V>): (r: (Args<V>, Option<SlotArray>))
    ensures r.0.c.None? && r.0.args == a.args
    ensures r.1 == a.c
  {
    (a.(c := None), a.c)
  }

  /** The pointer `C` gives for fresh slots designates the copy of the first
      value, and is nil when there are no values. */
  lemma FirstSlotIsFirstCopy<V>(vals: seq<V>)
    ensures |vals| == 0 ==> C(NewArgsFrom(vals)) == Nil
    ensures |vals| > 0 ==> Deref(NewArgsFrom(vals), C(NewArgsFrom(vals))) == Some(vals[0])
  {
  }

  /** Releasing twice frees the slot array once: the second release hands
      nil to `free` and changes nothing. */
  lemma ReleaseTwice<V>(a: Args<V>)
    ensures Release(Release(a).0) == (Release(a).0, None)
    ensures Release(a).1 == a.c
  {
  }
}

=== FILE: ffi.dfy ===
/** The call-interface layer of the ffi package: which Go kinds may cross
    the boundary, the libffi descriptor each one maps to, construction and
    release of a call interface, and the argument array handed to
    `ffi_call`. */
module Ffi {
  import opened Wrappers
  import opened Memory
  import opened Kinds
  import Types
  import Libffi

  /** libffi's `ffi_status`, held in a Go `uint32`. */
  newtype Status = x: int | 0 <= x < 0x1_0000_0000

  /** libffi numbers its status enumeration from FFI_OK = 0. */
  const Ok: Status := 0
  const BadTypedef: Status := 1
  const BadAbi: Status := 2

  /** The errors the package returns. */
  datatype Error =
    | InvalidTypeKind(kind: Kind)     // "ffi: invalid type kind %v"
    | TooManyReturnTypes              // "ffi: too many return types in function signature"
    | PrepareFailed(status: Status)   // "error while preparing cif (%s)"

  /** The value a panic carries: a message, or an error. */
  datatype Panic = PanicMessage(msg: string) | PanicError(err: Error)

  /** `Status.String`: the three known codes have a name; any other code panics. */
  function StatusString(s: Status): (r: Result<string, Panic>)
    ensures r.Success? <==> s in {Ok, BadTypedef, BadAbi}
    ensures r.Failure? ==> r.error == PanicMessage("ffi: unreachable")
  {
    if s == Ok then Success("FFI_OK")
    else if s == BadTypedef then Success("FFI_BAD_TYPEDEF")
    else if s == BadAbi then Success("FFI_BAD_ABI")
    else Failure(PanicMessage("ffi: unreachable"))
  }

  /** The code a status name stands for: the inverse of `StatusString`. */
  function ParseStatus(text: string): Option<Status> {
    if text == "FFI_OK" then Some(Ok)
    else if text == "FFI_BAD_TYPEDEF" then Some(BadTypedef)
    else if text == "FFI_BAD_ABI" then Some(BadAbi)
    else None
  }

  /** Every name `StatusString` gives reads back as its own code, so the three names are distinct. */
  lemma StatusStringRoundTrip(s: Status)
    requires StatusString(s).Success?
    ensures ParseStatus(StatusString(s).value) == Some(s)
  {
  }

  lemma StatusNamesDistinct(s: Status, t: Status)
    requires StatusString(s).Success? && StatusString(t).Success?
    ensures StatusString(s) == StatusString(t) <==> s == t
  {
    if StatusString(s) == StatusString(t) {
      StatusStringRoundTrip(s);
      StatusStringRoundTrip(t);
    }
  }

  // ----- kinds and descriptors ---------------------------------------------

  /** `validateReflectType`: only the integer kinds other than `uintptr` and
      the two float kinds may cross the boundary. */
  function Validate(k: Kind): (r: Result<(), Error>)
    ensures r.Success? <==> IsSigned(k) || (IsUnsigned(k) && k != Uintptr) || IsFloat(k)
    ensures r.Failure? ==> r.error == InvalidTypeKind(k)
  {
    match k
    case Uint | Uint8 | Uint16 | Uint32 | Uint64 => Success(())
    case Int | Int8 | Int16 | Int32 | Int64 => Success(())
    case Float32 | Float64 => Success(())
    case _ => Failure(InvalidTypeKind(k))
  }

  predicate Valid(k: Kind) {
    Validate(k).Success?
  }

  /** The Go kind a table entry stands for, when `ffiTypeFrom` maps one
      to it. Entries, not descriptors, are compared: libffi's C-named
      descriptors alias the fixed-width ones. */
  function KindFor(t: Types.Type): Option<Kind> {
    if t == Types.Int then Some(Int)
    else if t == Types.Int8 then Some(Int8)
    else if t == Types.Int16 then Some(Int16)
    else if t == Types.Int32 then Some(Int32)
    else if t == Types.Int64 then Some(Int64)
    else if t == Types.Uint then Some(Uint)
    else if t == Types.Uint8 then Some(Uint8)
    else if t == Types.Uint16 then Some(Uint16)
    else if t == Types.Uint32 then Some(Uint32)
    else if t == Types.Uint64 then Some(Uint64)
    else if t == Types.Float32 then Some(Float32)
    else if t == Types.Float64 then Some(Float64)
    else None
  }

  /** `ffiTypeFrom`: the table entry for a kind; it panics exactly on the
      kinds `Validate` rejects. */
  function TypeFrom(k: Kind): (r: Result<Types.Type, Panic>)
    ensures r.Success? <==> Valid(k)
    ensures r.Failure? ==> r.error == PanicError(InvalidTypeKind(k))
  {
    match k
    case Int => Success(Types.Int)
    case Int8 => Success(Types.Int8)
    case Int16 => Success(Types.Int16)
    case Int32 => Success(Types.Int32)
    case Int64 => Success(Types.Int64)
    case Uint => Success(Types.Uint)
    case Uint8 => Success(Types.Uint8)
    case Uint16 => Success(Types.Uint16)
    case Uint32 => Success(Types.Uint32)
    case Uint64 => Success(Types.Uint64)
    case Float32 => Success(Types.Float32)
    case Float64 => Success(Types.Float64)
    case _ => Failure(PanicError(InvalidTypeKind(k)))
  }

  /** The entry `TypeFrom` picks for a kind stands for that kind. */
  lemma TypeFromStandsFor(k: Kind)
    requires Valid(k)
    ensures TypeFrom(k).Success? && KindFor(TypeFrom(k).value) == Some(k)
  {
  }

  /** `TypeFrom` and `KindFor` are inverse: any table entry standing for k
      is the one `TypeFrom` picks for k. */
  lemma TypeFromInverse(k: Kind, t: Types.Type)
    requires KindFor(t) == Some(k)
    ensures TypeFrom(k) == Success(t)
  {
  }

  /** Every descriptor `TypeFrom` picks is an entry of the table. */
  lemma TypeFromInTable(k: Kind)
    requires Valid(k)
    ensures TypeFrom(k).Success? && TypeFrom(k).value in Types.Table
  {
  }

  /** `NewReturnFrom`: a nil return slot for a marshalable kind, a panic otherwise. */
  function NewReturnFrom(k: Kind): (r: Result<Addr, Panic>)
    ensures r.Success? <==> Valid(k)
    ensures r.Success? ==> r.value == Nil
    ensures r.Failure? ==> r.error == PanicError(InvalidTypeKind(k))
  {
    match Validate(k)
    case Failure(e) => Failure(PanicError(e))
    case Success(_) => Success(Nil)
  }

  // ----- call interfaces ---------------------------------------------------

  /** `ffi_prep_cif` as an oracle: the status it reports for a request. */
  type Prep = Libffi.CifRequest -> Status

  /** A call interface: the prepared libffi state, the return descriptor
      (possibly nil) and the owned argument descriptor array (nil when there
      are no arguments, or once released). */
  datatype Cif = Cif(c: Libffi.CifRequest, ret: Option<Libffi.Descriptor>, args: Option<seq<Libffi.Descriptor>>)

  /** The argument descriptors a call interface holds, in order. */
  function ArgTypes(cif: Cif): seq<Libffi.Descriptor> {
    if cif.args.Some? then cif.args.value else []
  }

  /** The request both constructors hand to `ffi_prep_cif`: the default ABI,
      the arity converted to a C `unsigned int`, the return descriptor, and
      the argument array, left nil when there are no arguments. */
  function Request(ret: Option<Libffi.Descriptor>, ds: seq<Libffi.Descriptor>): Libffi.CifRequest {
    Libffi.CifRequest(Libffi.DefaultAbi, |ds| % 0x1_0000_0000, ret, if |ds| > 0 then Some(ds) else None)
  }

  /** What a constructor leaves behind: its Go results, and the argument
      array it allocated but neither handed out in a call interface nor
      freed. Both constructors return on a failed preparation without
      freeing the array they allocated, so the caller never sees it again. */
  datatype Built = Built(cif: Result<Cif, Error>, lost: Option<seq<Libffi.Descriptor>>)

  /** The shared tail of `New` and `NewFrom`: prepare, and turn a status
      other than `Ok` into an error, losing the argument array. */
  function Prepare(ret: Option<Libffi.Descriptor>, ds: seq<Libffi.Descriptor>, prep: Prep): (r: Built)
    ensures r.cif.Failure? <==> prep(Request(ret, ds)) != Ok
    ensures r.cif.Failure? ==> r.cif.error == PrepareFailed(prep(Request(ret, ds)))
    ensures r.cif.Success? ==> r.cif.value.ret == ret && ArgTypes(r.cif.value) == ds
    ensures r.cif.Success? ==> (r.cif.value.args.None? <==> |ds| == 0)
    ensures r.cif.Success? ==> r.cif.value.c == Request(r.cif.value.ret, ArgTypes(r.cif.value)) && r.cif.value.c.atypes == r.cif.value.args
    ensures r.lost.Some? <==> r.cif.Failure? && |ds| > 0
    ensures r.lost.Some? ==> r.lost.value == ds
  {
    var req := Request(ret, ds);
    var sc := prep(req);
    if sc != Ok then Built(Failure(PrepareFailed(sc)), req.atypes) else Built(Success(Cif(req, ret, req.atypes)), None)
  }

  /** The descriptors of a list of table entries, in order. */
  function Descriptors(ts: seq<Types.Type>): (ds: seq<Libffi.Descriptor>)
    ensures |ds| == |ts| && forall i :: 0 <= i < |ts| ==> ds[i] == ts[i].c
  {
    seq(|ts|, i requires 0 <= i < |ts| => ts[i].c)
  }

  /** `New`: a call interface returning `rtype` over `args`. The argument
      array lists the descriptor of argument i at position i and is nil for
      no arguments; the call fails, with no interface, exactly when
      preparation does not report `Ok`, and then a non-nil argument array
      is lost. */
  function New(rtype: Types.Type, args: seq<Types.Type>, prep: Prep): (r: Built)
    ensures r.cif.Failure? <==> prep(Request(Some(rtype.c), Descriptors(args))) != Ok
    ensures r.cif.Failure? ==> r.cif.error == PrepareFailed(prep(Request(Some(rtype.c), Descriptors(args))))
    ensures r.cif.Success? ==> r.cif.value.ret == Some(rtype.c)
    ensures r.cif.Success? ==> (r.cif.value.args.None? <==> |args| == 0)
    ensures r.cif.Success? ==> |ArgTypes(r.cif.value)| == |args|
    ensures r.cif.Success? ==> forall i :: 0 <= i < |args| ==> ArgTypes(r.cif.value)[i] == args[i].c
    ensures r.cif.Success? ==> r.cif.value.c == Request(r.cif.value.ret, ArgTypes(r.cif.value))
    ensures r.lost.Some? <==> r.cif.Failure? && |args| > 0
    ensures r.lost.Some? ==> |r.lost.value| == |args| && forall i :: 0 <= i < |args| ==> r.lost.value[i] == args[i].c
  {
    Prepare(Some(rtype.c), Descriptors(args), prep)
  }

  /** The index of the first kind `Validate` rejects, if any: the parameter
      loop of `NewFrom`, which returns the first error it meets. */
  function FirstInvalid(ks: seq<Kind>): (r: Option<nat>)
    ensures r.None? <==> forall i :: 0 <= i < |ks| ==> Valid(ks[i])
    ensures r.Some? ==> r.value < |ks| && !Valid(ks[r.value])
    ensures r.Some? ==> forall i :: 0 <= i < r.value ==> Valid(ks[i])
  {
    if |ks| == 0 then None
    else if !Valid(ks[0]) then Some(0)
    else match FirstInvalid(ks[1..])
      case None => None
      case Some(i) => Some(i + 1)
  }

  /** The result loop of `NewFrom` from index i on: an index above 1 is
      reported as too many results, but only after indices 0 and 1 have been
      validated. */
  function CheckResultsFrom(outs: seq<Kind>, i: nat): Option<Error>
    decreases |outs| - i
  {
    if i >= |outs| then None
    else if i > 1 then Some(TooManyReturnTypes)
    else if !Valid(outs[i]) then Some(InvalidTypeKind(outs[i]))
    else CheckResultsFrom(outs, i + 1)
  }

  /** The result check of `NewFrom`: the first two results are validated in
      order, and a third result is an error; two results pass. */
  function CheckResults(outs: seq<Kind>): (r: Option<Error>)
    ensures r.None? <==> |outs| <= 2 && forall i :: 0 <= i < |outs| ==> Valid(outs[i])
    ensures |outs| > 0 && !Valid(outs[0]) ==> r == Some(InvalidTypeKind(outs[0]))
    ensures |outs| > 1 && Valid(outs[0]) && !Valid(outs[1]) ==> r == Some(InvalidTypeKind(outs[1]))
    ensures |outs| > 2 && Valid(outs[0]) && Valid(outs[1]) ==> r == Some(TooManyReturnTypes)
  {
    assert CheckResultsFrom(outs, 2) == if |outs| > 2 then Some(TooManyReturnTypes) else None;
    assert CheckResultsFrom(outs, 1) == if |outs| <= 1 then None
      else if !Valid(outs[1]) then Some(InvalidTypeKind(outs[1])) else CheckResultsFrom(outs, 2);
    CheckResultsFrom(outs, 0)
  }

  /** The descriptors of validated parameter kinds, in order: the loop that
      fills the argument array of `NewFrom`. */
  function ParamDescriptors(ks: seq<Kind>): (ds: seq<Libffi.Descriptor>)
    requires forall i :: 0 <= i < |ks| ==> Valid(ks[i])
    ensures |ds| == |ks|
    ensures forall i :: 0 <= i < |ks| ==> TypeFrom(ks[i]).Success? && ds[i] == TypeFrom(ks[i]).value.c
  {
    if |ks| == 0 then [] else [TypeFrom(ks[0]).value.c] + ParamDescriptors(ks[1..])
  }

  /** `NewFrom`: a call interface for a Go function type. Any other kind is
      rejected; parameters are validated before results; exactly one result
      sets the return descriptor, and zero or two leave it nil. Only a
      failed preparation loses an argument array: the checks before it
      allocate nothing. */
  function NewFrom(rt: GoType, prep: Prep): (r: Built)
    ensures rt.TypeKind() != Func ==> r == Built(Failure(InvalidTypeKind(rt.TypeKind())), None)
    ensures r.cif.Success? ==> rt.FuncOf?
    ensures r.cif.Success? ==> forall i :: 0 <= i < |rt.sig.params| ==> Valid(rt.sig.params[i])
    ensures r.cif.Success? ==> |rt.sig.results| <= 2 && forall i :: 0 <= i < |rt.sig.results| ==> Valid(rt.sig.results[i])
    ensures r.cif.Success? ==> (r.cif.value.ret.Some? <==> |rt.sig.results| == 1)
    ensures r.cif.Success? && |rt.sig.results| == 1 ==> r.cif.value.ret == Some(TypeFrom(rt.sig.results[0]).value.c)
    ensures r.cif.Success? ==> |ArgTypes(r.cif.value)| == |rt.sig.params|
    ensures r.cif.Success? ==> forall i :: 0 <= i < |rt.sig.params| ==> ArgTypes(r.cif.value)[i] == TypeFrom(rt.sig.params[i]).value.c
    ensures r.cif.Success? ==> (r.cif.value.args.None? <==> |rt.sig.params| == 0)
    ensures r.cif.Success? ==> r.cif.value.c == Request(r.cif.value.ret, ArgTypes(r.cif.value))
    ensures r.lost.Some? ==> r.cif.Failure? && r.cif.error.PrepareFailed? && rt.FuncOf?
    ensures r.lost.Some? ==> |r.lost.value| == |rt.sig.params| > 0
    ensures r.lost.Some? ==> forall i :: 0 <= i < |rt.sig.params| ==> Valid(rt.sig.params[i]) && r.lost.value[i] == TypeFrom(rt.sig.params[i]).value.c
    ensures r.cif.Failure? && r.cif.error.PrepareFailed? ==> rt.FuncOf? && (r.lost.Some? <==> |rt.sig.params| > 0)
  {
    if !rt.FuncOf? then Built(Failure(InvalidTypeKind(rt.TypeKind())), None)
    else
      var sig := rt.sig;
      match FirstInvalid(sig.params)
      case Some(i) => Built(Failure(InvalidTypeKind(sig.params[i])), None)
      case None =>
        match CheckResults(sig.results)
        case Some(e) => Built(Failure(e), None)
        case None =>
          var ret := if |sig.results| == 1 then Some(TypeFrom(sig.results[0]).value.c) else None;
          Prepare(ret, ParamDescriptors(sig.params), prep)
  }

  /** `CIF.Release`: frees the argument array (a nil array frees nothing) and
      leaves it nil. The result pairs the released interface with the block
      handed to `free`. */
  function Release(cif: Cif): (r: (Cif, Option<seq<Libffi.Descriptor>>))
    ensures r.0.args.None?
    ensures r.0.c == cif.c && r.0.ret == cif.ret
    ensures r.1 == cif.args
  {
    (cif.(args := None), cif.args)
  }

  /** `CIF.Call`, as the request it makes of `ffi_call`: the argument
      pointer array is nil for no arguments and otherwise lists the given
      pointers in order. */
  function Call(cif: Cif, fptr: Addr, ret: Addr, args: seq<Addr>): (r: Libffi.CallRequest)
    ensures r.cif == cif.c && r.fn == fptr && r.rvalue == ret
    ensures r.avalue.None? <==> |args| == 0
    ensures r.avalue.Some? ==> |r.avalue.value| == |args| && forall i :: 0 <= i < |args| ==> r.avalue.value[i] == args[i]
  {
    Libffi.CallRequest(cif.c, fptr, ret, if |args| > 0 then Some(args) else None)
  }
}

=== FILE: ffi_props.dfy ===
/** Properties of call-interface construction that relate several calls or
    several inputs: error precedence in `NewFrom`, its agreement with `New`,
    and the harmlessness of a second `Release`. */
module FfiProperties {
  import opened Wrappers
  import opened Kinds
  import opened Ffi
  import Types

  /** The first invalid parameter is reported, whatever the results are. */
  lemma NewFromParamErrorWins(rt: GoType, prep: Prep, i: nat)
    requires rt.FuncOf? && i < |rt.sig.params|
    requires !Valid(rt.sig.params[i])
    requires forall j :: 0 <= j < i ==> Valid(rt.sig.params[j])
    ensures NewFrom(rt, prep) == Built(Failure(InvalidTypeKind(rt.sig.params[i])), None)
  {
    var f := FirstInvalid(rt.sig.params);
    assert f.Some?;
    assert f.value == i;
  }

  /** With valid parameters, an invalid kind among the first two results is
      reported, the first one first. */
  lemma NewFromInvalidResult(rt: GoType, prep: Prep, i: nat)
    requires rt.FuncOf? && forall j :: 0 <= j < |rt.sig.params| ==> Valid(rt.sig.params[j])
    requires i < 2 && i < |rt.sig.results| && !Valid(rt.sig.results[i])
    requires forall j :: 0 <= j < i ==> Valid(rt.sig.results[j])
    ensures NewFrom(rt, prep) == Built(Failure(InvalidTypeKind(rt.sig.results[i])), None)
  {
    assert FirstInvalid(rt.sig.params).None?;
    if i == 1 {
      assert Valid(rt.sig.results[0]);
    }
  }

  /** With valid parameters and two valid first results, any further result
      is reported as too many results, even one of an invalid kind. */
  lemma NewFromTooManyResults(rt: GoType, prep: Prep)
    requires rt.FuncOf? && forall j :: 0 <= j < |rt.sig.params| ==> Valid(rt.sig.params[j])
    requires |rt.sig.results| > 2 && Valid(rt.sig.results[0]) && Valid(rt.sig.results[1])
    ensures NewFrom(rt, prep) == Built(Failure(TooManyReturnTypes), None)
  {
    assert FirstInvalid(rt.sig.params).None?;
  }

  /** A valid signature with no result or with two results passes the checks
      and gets a nil return descriptor; only preparation can still fail. */
  lemma NewFromWithoutReturnDescriptor(rt: GoType, prep: Prep)
    requires rt.FuncOf? && forall j :: 0 <= j < |rt.sig.params| ==> Valid(rt.sig.params[j])
    requires |rt.sig.results| == 0 || |rt.sig.results| == 2
    requires forall j :: 0 <= j < |rt.sig.results| ==> Valid(rt.sig.results[j])
    ensures NewFrom(rt, prep).cif.Success? <==> prep(Request(None, ParamDescriptors(rt.sig.params))) == Ok
    ensures NewFrom(rt, prep).cif.Success? ==> NewFrom(rt, prep).cif.value.ret.None?
    ensures NewFrom(rt, prep).cif.Failure? ==> NewFrom(rt, prep).cif.error == PrepareFailed(prep(Request(None, ParamDescriptors(rt.sig.params))))
  {
    assert FirstInvalid(rt.sig.params).None?;
    assert CheckResults(rt.sig.results).None?;
  }

  /** The table entries of validated kinds, in order. */
  function TypesFrom(ks: seq<Kind>): (ts: seq<Types.Type>)
    requires forall i :: 0 <= i < |ks| ==> Valid(ks[i])
    ensures |ts| == |ks|
    ensures forall i :: 0 <= i < |ks| ==> TypeFrom(ks[i]).Success? && ts[i] == TypeFrom(ks[i]).value
  {
    if |ks| == 0 then [] else [TypeFrom(ks[0]).value] + TypesFrom(ks[1..])
  }

  /** For a valid one-result signature, `NewFrom` builds exactly what `New`
      builds from the descriptors `TypeFrom` gives the result and the
      parameters. */
  lemma NewFromAgreesWithNew(rt: GoType, prep: Prep)
    requires rt.FuncOf? && forall j :: 0 <= j < |rt.sig.params| ==> Valid(rt.sig.params[j])
    requires |rt.sig.results| == 1 && Valid(rt.sig.results[0])
    ensures NewFrom(rt, prep) == New(TypeFrom(rt.sig.results[0]).value, TypesFrom(rt.sig.params), prep)
  {
    var ps := rt.sig.params;
    assert FirstInvalid(ps).None?;
    assert CheckResults(rt.sig.results).None?;
    assert Descriptors(TypesFrom(ps)) == ParamDescriptors(ps);
  }

  /** Every argument array `New` allocates is accounted for: either the new
      call interface holds it, and `Release` hands it to `free`, or
      preparation failed and the array is lost. */
  lemma NewArrayFreedOrLost(rtype: Types.Type, args: seq<Types.Type>, prep: Prep)
    requires |args| > 0
    ensures var r := New(rtype, args, prep);
      || (r.cif.Success? && r.lost.None? && Release(r.cif.value).1 == Some(Descriptors(args)))
      || (r.cif.Failure? && r.lost == Some(Descriptors(args)))
  {
  }

  /** Releasing twice frees the argument array once: the second release
      hands nil to `free` and changes nothing. */
  lemma ReleaseTwice(cif: Cif)
    ensures Release(Release(cif).0) == (Release(cif).0, None)
    ensures Release(cif).1 == cif.args
  {
  }
}

=== FILE: kinds.dfy ===
/** Go types as the binding layer inspects them through reflection: their
    kind, the shape of a function signature, and the width and range of
    each integer kind. */
module Kinds {
  import opened Memory

  /** The kinds of the reflect package, in its declaration order. */
  datatype Kind =
    | Invalid | Bool
    | Int | Int8 | Int16 | Int32 | Int64
    | Uint | Uint8 | Uint16 | Uint32 | Uint64 | Uintptr
    | Float32 | Float64 | Complex64 | Complex128
    | Array | Chan | Func | Interface | Map | Ptr | Slice | String | Struct
    | UnsafePointer

  /** The platform word, which fixes the size of `int`, `uint`, `uintptr` and pointers. */
  datatype Arch = Arch32 | Arch64 {
    function WordBytes(): nat {
      if Arch32? then 4 else 8
    }
  }

  predicate IsSigned(k: Kind) {
    k == Int || k == Int8 || k == Int16 || k == Int32 || k == Int64
  }

  predicate IsUnsigned(k: Kind) {
    k == Uint || k == Uint8 || k == Uint16 || k == Uint32 || k == Uint64 || k == Uintptr
  }

  predicate IsInteger(k: Kind) {
    IsSigned(k) || IsUnsigned(k)
  }

  predicate IsFloat(k: Kind) {
    k == Float32 || k == Float64
  }

  /** The storage size, in bytes, of an integer kind. */
  function Size(k: Kind, arch: Arch): (n: nat)
    requires IsInteger(k)
    ensures 1 <= n <= 8
  {
    match k
    case Int8 | Uint8 => 1
    case Int16 | Uint16 => 2
    case Int32 | Uint32 => 4
    case Int64 | Uint64 => 8
    case _ => arch.WordBytes()
  }

  /** n is a value of the integer kind k. */
  predicate InRange(k: Kind, arch: Arch, n: int)
    requires IsInteger(k)
  {
    var size := Size(k, arch);
    if IsSigned(k) then -Half(size) <= n < Half(size) else 0 <= n < Pow256(size)
  }

  /** A function signature: the kinds of its parameters and of its results, in order. */
  datatype Sig = Sig(params: seq<Kind>, results: seq<Kind>)

  /** A Go type: a type known only by its kind, a function type, or a pointer type. */
  datatype RType = Basic(kind: Kind) | FuncOf(sig: Sig) | PointerTo(elem: RType) {

    function TypeKind(): Kind {
      match this
      case Basic(k) => k
      case FuncOf(_) => Func
      case PointerTo(_) => Ptr
    }

    /** Function and pointer kinds always carry their signature or element type. */
    predicate WellFormed() {
      match this
      case Basic(k) => k != Func && k != Ptr
      case FuncOf(_) => true
      case PointerTo(e) => e.WellFormed()
    }
  }

  type GoType = t: RType | t.WellFormed() witness Basic(Int)
}

=== FILE: libffi.dfy ===
/** The parts of libffi the binding layer touches. The library itself is
    foreign code: its type descriptors appear here as names, and
    `ffi_prep_cif` and `ffi_call` appear only through the requests handed
    to them. */
module Libffi {
  import opened Wrappers
  import opened Memory

  /** The descriptor globals libffi exports (`ffi_type_void`, `ffi_type_uchar`, ...). */
  datatype Descriptor =
    | Void
    | Uchar | Ushort | Uint | Ulong
    | Schar | Sshort | Sint | Slong
    | Uint8 | Uint16 | Uint32 | Uint64
    | Sint8 | Sint16 | Sint32 | Sint64
    | Float | Double
    | Pointer

  /** The calling convention; the binding layer only ever asks for the default one. */
  datatype Abi = DefaultAbi

  /** The arguments of one `ffi_prep_cif` call: ABI, argument count (a C
      `unsigned int`), return descriptor and argument descriptor array, each
      possibly nil. A prepared `ffi_cif` is modelled by the request it was
      prepared from. */
  datatype CifRequest = CifRequest(abi: Abi, nargs: nat, rtype: Option<Descriptor>, atypes: Option<seq<Descriptor>>)

  /** The arguments of one `ffi_call` call: the prepared interface, the code
      address, the return slot and the argument pointer array (nil or not). */
  datatype CallRequest = CallRequest(cif: CifRequest, fn: Addr, rvalue: Addr, avalue: Option<seq<Addr>>)
}

=== FILE: memory.dfy ===
/** Native memory as the binding layer sees it: bytes at addresses,
    little-endian loads of a fixed width, two's-complement conversions,
    and the pointers handed across the FFI boundary. */
module Memory {

  /** One byte of native memory. */
  type Byte = b: int | 0 <= b < 256

  /** The process memory, as an oracle: the byte stored at each address. */
  type Mem = nat -> Byte

  /** An `unsafe.Pointer`, as far as the model needs to tell them apart:
      nil, an address inside the loaded library, the Go-side copy of the
      i-th argument of a bound call, or the Go-side return slot of a call.
      The Go-side locations live here, beside native addresses, because an
      `unsafe.Pointer` handed to libffi may designate either kind. */
  datatype Addr = Nil | Native(at: nat) | ArgCopy(index: nat) | ReturnSlot

  /** 256 to the power n: the number of values n bytes can hold. */
  function Pow256(n: nat): (r: nat)
    ensures r > 0
  {
    if n == 0 then 1 else 256 * Pow256(n - 1)
  }

  /** Half the range of an n-byte integer: the first value whose top bit is set. */
  function Half(n: nat): int
    requires n > 0
  {
    128 * Pow256(n - 1)
  }

  lemma {:induction false} Pow256Monotone(m: nat, n: nat)
    requires m <= n
    ensures Pow256(m) <= Pow256(n)
    decreases n
  {
    if m < n {
      Pow256Monotone(m, n - 1);
    }
  }

  /** The unsigned value of the n bytes at `addr`, least significant first. */
  function LoadLE(mem: Mem, addr: nat, n: nat): (r: nat)
    ensures r < Pow256(n)
    decreases n
  {
    if n == 0 then 0 else mem(addr) + 256 * LoadLE(mem, addr + 1, n - 1)
  }

  /** The n low bytes of x, least significant first. */
  function EncodeLE(x: nat, n: nat): (r: seq<Byte>)
    ensures |r| == n
  {
    if n == 0 then [] else [x % 256] + EncodeLE(x / 256, n - 1)
  }

  /** `mem` holds `bytes` starting at `addr`. */
  ghost predicate Holds(mem: Mem, addr: nat, bytes: seq<Byte>) {
    forall i :: 0 <= i < |bytes| ==> mem(addr + i) == bytes[i]
  }

  /** Loading n bytes that hold the encoding of x gives x back. */
  lemma {:induction false} LoadEncoded(mem: Mem, addr: nat, x: nat, n: nat)
    requires x < Pow256(n)
    requires Holds(mem, addr, EncodeLE(x, n))
    ensures LoadLE(mem, addr, n) == x
    decreases n
  {
    if n > 0 {
      var bytes := EncodeLE(x, n);
      var rest := EncodeLE(x / 256, n - 1);
      assert bytes == [x % 256] + rest;
      forall i | 0 <= i < |rest|
        ensures mem(addr + 1 + i) == rest[i]
      {
        assert bytes[i + 1] == rest[i];
        assert mem(addr + (i + 1)) == bytes[i + 1];
      }
      assert Holds(mem, addr + 1, rest);
      LoadEncoded(mem, addr + 1, x / 256, n - 1);
      assert mem(addr + 0) == bytes[0];
    }
  }

  /** The two's-complement reading of an n-byte bit pattern. */
  function ToSigned(u: nat, n: nat): (r: int)
    requires n > 0 && u < Pow256(n)
    ensures -Half(n) <= r < Half(n)
    ensures r == u || r == u - Pow256(n)
  {
    if u < Half(n) then u else u - Pow256(n)
  }

  /** A Go integer conversion into an n-byte type: keep the n low bytes of v,
      read as signed or unsigned. The result and v agree modulo 256^n, so
      they differ by a multiple of 256^n. */
  function Wrap(v: int, n: nat, signed: bool): (r: int)
    requires n > 0
    ensures signed ==> -Half(n) <= r < Half(n)
    ensures !signed ==> 0 <= r < Pow256(n)
    ensures r % Pow256(n) == v % Pow256(n)
  {
    var p := Pow256(n);
    var u := v % p;
    ModOfRange(u, p, 0);
    if signed && u >= Half(n) then
      ModOfRange(u - p, p, -1);
      ToSigned(u, n)
    else if signed then ToSigned(u, n) else u
  }

  /** A conversion into a type that can already hold the value changes nothing. */
  lemma WrapKeeps(v: int, n: nat, signed: bool)
    requires n > 0
    requires signed ==> -Half(n) <= v < Half(n)
    requires !signed ==> 0 <= v < Pow256(n)
    ensures Wrap(v, n, signed) == v
  {
    var p := Pow256(n);
    if v >= 0 {
      ModOfRange(v, p, 0);
    } else {
      ModOfRange(v, p, -1);
    }
  }

  /** The signed reading of a value's n-byte bit pattern is the value, when it fits. */
  lemma SignedBitsRoundTrip(v: int, n: nat)
    requires n > 0 && -Half(n) <= v < Half(n)
    ensures ToSigned(Wrap(v, n, false), n) == v
  {
    if v >= 0 {
      ModOfRange(v, Pow256(n), 0);
    } else {
      ModOfRange(v, Pow256(n), -1);
    }
  }

  /** When v lies in [q*p, (q+1)*p), its remainder by p is v - q*p. */
  lemma ModOfRange(v: int, p: int, q: int)
    requires p > 0
    requires q * p <= v < q * p + p
    ensures v % p == v - q * p
  {
    var d := v / p;
    assert d * p + v % p == v;
    if d < q {
      MulMonotone(d + 1, q, p);
      assert false;
    } else if d > q {
      MulMonotone(q + 1, d, p);
      assert false;
    }
  }

  lemma {:induction false} MulMonotone(a: int, b: int, p: int)
    requires a <= b && p > 0
    ensures a * p <= b * p
    decreases b - a
  {
    if a < b {
      MulMonotone(a, b - 1, p);
      assert b * p == (b - 1) * p + p;
    }
  }
}

=== FILE: plugin.dfy ===
/** Symbol binding (plugin.go): `LookupC` checks the destination pointer,
    then fills the destination according to its kind. Data symbols are read
    from native memory at the destination's width; a function destination
    receives a bound function, whose calls marshal their arguments into
    fresh slots, make one `ffi_call` and release the slots again. */
module Plugin {
  import opened Wrappers
  import opened Memory
  import opened Kinds
  import Ffi
  import Libffi
  import ArgSlots

  /** A bound native function: the call interface, the code address and the
      signature it was built from. */
  datatype Bound = Bound(cif: Ffi.Cif, addr: Addr, sig: Sig)

  /** A Go value as the binding layer stores or passes it. */
  datatype Value =
    | IntValue(kind: Kind, n: int)
    | FloatBits(kind: Kind, bits: nat)   // a float or complex value, as its bit pattern
    | CString(at: nat)                   // the Go string converted from the C string at this address
    | PointerValue(p: Addr)
    | FuncValue(fn: Bound)

  /** The `interface{}` handed to `LookupC`: nil, or a value of type t; for a
      pointer type, `isNil` says whether the pointer is nil. */
  datatype Iface = NilInterface | Holding(t: GoType, isNil: bool)

  datatype Error =
    | NilPtr                      // errNilPtr
    | NotPtr                      // errNotPtr
    | UnexpectedUnsafePointer     // "plugin: unexpected unafe.Pointer"
    | InvalidType(t: GoType)      // "plugin: invalid type %T", naming the type of the argument
    | FfiError(e: Ffi.Error)      // an error of ffi.NewFrom, passed on
    | LoaderError(msg: string)    // an error of the dynamic loader, passed on

  /** The value an integer destination receives: the symbol's bytes read at
      the kind's own width, widened through `int64` (signed kinds) or
      `uint64` (unsigned kinds), then stored into the kind by `SetInt` or
      `SetUint`, which keep the kind's width. */
  function ReadInteger(k: Kind, arch: Arch, mem: Mem, addr: nat): (n: int)
    requires IsInteger(k)
    ensures InRange(k, arch, n)
  {
    var size := Size(k, arch);
    var raw := LoadLE(mem, addr, size);
    if IsSigned(k) then Wrap(Wrap(ToSigned(raw, size), 8, true), size, true)
    else Wrap(Wrap(raw, 8, false), size, false)
  }

  /** The kind switch of `LookupC`: what is stored through a pointer of type
      t to a value of type `elem`, for the symbol at `addr`. */
  function Store(arch: Arch, mem: Mem, addr: nat, t: GoType, elem: GoType, prep: Ffi.Prep): Result<Value, Error> {
    match elem.TypeKind()
    case Int | Int8 | Int16 | Int32 | Int64 =>
      Success(IntValue(elem.TypeKind(), ReadInteger(elem.TypeKind(), arch, mem, addr)))
    case Uint | Uint8 | Uint16 | Uint32 | Uint64 | Uintptr =>
      Success(IntValue(elem.TypeKind(), ReadInteger(elem.TypeKind(), arch, mem, addr)))
    case Float32 => Success(FloatBits(Float32, LoadLE(mem, addr, 4)))
    case Float64 => Success(FloatBits(Float64, LoadLE(mem, addr, 8)))
    case Complex64 => Success(FloatBits(Complex64, LoadLE(mem, addr, 8)))
    case Complex128 => Success(FloatBits(Complex128, LoadLE(mem, addr, 16)))
    case String => Success(CString(LoadLE(mem, addr, arch.WordBytes())))
    case UnsafePointer => Success(PointerValue(Native(addr)))
    case Func =>
      (match Ffi.NewFrom(elem, prep).cif
       case Failure(e) => Failure(FfiError(e))
       case Success(cif) => Success(FuncValue(Bound(cif, Native(addr), elem.sig))))
    case _ => Failure(InvalidType(t))
  }

  /** `Plugin.LookupC` for a symbol whose lookup gave `sym`. `Success(v)`
      means v was stored through `valptr` and nil returned; on `Failure`
      nothing was stored. */
  function LookupC(arch: Arch, sym: Result<nat, Error>, valptr: Iface, mem: Mem, prep: Ffi.Prep): (r: Result<Value, Error>)
    ensures sym.Failure? ==> r == Failure(sym.error)
    ensures sym.Success? && valptr.NilInterface? ==> r == Failure(NotPtr)
    ensures sym.Success? && valptr.Holding? && valptr.t.PointerTo? && valptr.isNil ==> r == Failure(NilPtr)
    ensures sym.Success? && valptr.Holding? && valptr.t.TypeKind() == UnsafePointer ==> r == Failure(UnexpectedUnsafePointer)
    ensures sym.Success? && valptr.Holding? && !valptr.t.PointerTo? && valptr.t.TypeKind() != UnsafePointer
      ==> r == Failure(NotPtr)
    ensures r.Success? ==> sym.Success? && valptr.Holding? && valptr.t.PointerTo? && !valptr.isNil
  {
    match sym
    case Failure(e) => Failure(e)
    case Success(addr) =>
      match valptr
      case NilInterface => Failure(NotPtr)
      case Holding(t, isNil) =>
        match t.TypeKind()
        case Ptr =>
          if isNil then Failure(NilPtr) else Store(arch, mem, addr, t, t.elem, prep)
        case UnsafePointer => Failure(UnexpectedUnsafePointer)
        case _ => Failure(NotPtr)
  }

  // ----- calling a bound function -----------------------------------------

  /** What one call of a bound function did: the request made of
      `ffi_call`, the argument slots as allocated and as released, the block
      handed to `free`, and the values returned to the Go caller. */
  datatype Invocation = Invocation(
    call: Libffi.CallRequest,
    slots: ArgSlots.Args<Value>,
    released: ArgSlots.Args<Value>,
    freed: Option<ArgSlots.SlotArray>,
    results: seq<Value>)

  /** The native function as an oracle: the value a call leaves in its return slot. */
  type Native = Libffi.CallRequest -> Value

  /** The return slot of a call: a fresh Go value when the signature has
      exactly one result, nil otherwise. */
  function ReturnFor(sig: Sig): Addr {
    if |sig.results| == 1 then ReturnSlot else Nil
  }

  /** The body `LookupC` gives to `reflect.MakeFunc`, as written: it passes
      `cargs.C()`, the first slot only, as the one argument pointer of `Call`. */
  function InvokeAsWritten(b: Bound, input: seq<Value>, native: Native): (r: Invocation)
    ensures r.slots == ArgSlots.NewArgsFrom(input)
    ensures r.call.avalue == Some([ArgSlots.C(r.slots)])
    ensures r.call.fn == b.addr && r.call.cif == b.cif.c
    ensures r.released.c.None? && r.freed == r.slots.c
    ensures (r.call.rvalue != Nil) <==> |b.sig.results| == 1
    ensures |r.results| == (if |b.sig.results| == 1 then 1 else 0)
  {
    var cargs := ArgSlots.NewArgsFrom(input);
    var cret := ReturnFor(b.sig);
    var call := Ffi.Call(b.cif, b.addr, cret, [ArgSlots.C(cargs)]);
    var (released, freed) := ArgSlots.Release(cargs);
    Invocation(call, cargs, released, freed, if cret == ReturnSlot then [native(call)] else [])
  }

  /** The same body passing the whole slot array, so that `ffi_call` sees
      one pointer per argument. */
  function Invoke(b: Bound, input: seq<Value>, native: Native): (r: Invocation)
    ensures r.slots == ArgSlots.NewArgsFrom(input)
    ensures r.call.avalue.None? <==> |input| == 0
    ensures r.call.avalue.Some? ==> |r.call.avalue.value| == |input|
    ensures r.call.avalue.Some? ==> forall i :: 0 <= i < |input| ==> ArgSlots.Deref(r.slots, r.call.avalue.value[i]) == Some(input[i])
    ensures r.call.fn == b.addr && r.call.cif == b.cif.c
    ensures r.released.c.None? && r.freed == r.slots.c
    ensures (r.call.rvalue != Nil) <==> |b.sig.results| == 1
    ensures |r.results| == (if |b.sig.results| == 1 then 1 else 0)
  {
    var cargs := ArgSlots.NewArgsFrom(input);
    var cret := ReturnFor(b.sig);
    var call := Ffi.Call(b.cif, b.addr, cret, ArgSlots.Slots(cargs));
    var (released, freed) := ArgSlots.Release(cargs);
    Invocation(call, cargs, released, freed, if cret == ReturnSlot then [native(call)] else [])
  }
}

=== FILE: plugin_props.dfy ===
/** Properties of symbol binding and of calls through a bound function:
    what each destination kind receives, and how a call hands its
    arguments to `ffi_call`. */
module PluginProperties {
  import opened Wrappers
  import opened Memory
  import opened Kinds
  import opened Plugin
  import Ffi
  import Libffi
  import ArgSlots

  /** An integer or `uintptr` destination receives a value of its own kind's
      range, and the call succeeds. */
  lemma IntegerDestination(arch: Arch, addr: nat, t: GoType, mem: Mem, prep: Ffi.Prep)
    requires t.PointerTo? && IsInteger(t.elem.TypeKind())
    ensures var r := LookupC(arch, Success(addr), Holding(t, false), mem, prep);
      r.Success? && r.value.IntValue? && r.value.kind == t.elem.TypeKind() && InRange(r.value.kind, arch, r.value.n)
    ensures LookupC(arch, Success(addr), Holding(t, false), mem, prep)
      == Success(IntValue(t.elem.TypeKind(), ReadInteger(t.elem.TypeKind(), arch, mem, addr)))
  {
    assert LookupC(arch, Success(addr), Holding(t, false), mem, prep) == Store(arch, mem, addr, t, t.elem, prep);
  }

  /** A symbol holding the little-endian encoding of an in-range value v
      binds v itself to an integer destination of that kind. */
  lemma IntegerDestinationRoundTrip(arch: Arch, addr: nat, t: GoType, mem: Mem, prep: Ffi.Prep, v: int)
    requires t.PointerTo? && IsInteger(t.elem.TypeKind())
    requires InRange(t.elem.TypeKind(), arch, v)
    requires Holds(mem, addr, EncodeLE(Wrap(v, Size(t.elem.TypeKind(), arch), false), Size(t.elem.TypeKind(), arch)))
    ensures LookupC(arch, Success(addr), Holding(t, false), mem, prep) == Success(IntValue(t.elem.TypeKind(), v))
  {
    IntegerDestination(arch, addr, t, mem, prep);
    ReadIntegerRoundTrip(t.elem.TypeKind(), arch, mem, addr, v);
  }

  /** Reading back the encoding of an in-range value gives the value. */
  lemma ReadIntegerRoundTrip(k: Kind, arch: Arch, mem: Mem, addr: nat, v: int)
    requires IsInteger(k) && InRange(k, arch, v)
    requires Holds(mem, addr, EncodeLE(Wrap(v, Size(k, arch), false), Size(k, arch)))
    ensures ReadInteger(k, arch, mem, addr) == v
  {
    var size := Size(k, arch);
    var bits := Wrap(v, size, false);
    LoadEncoded(mem, addr, bits, size);
    Pow256Monotone(size, 8);
    if IsSigned(k) {
      SignedBitsRoundTrip(v, size);
      WrapKeeps(v, 8, true);
      WrapKeeps(v, size, true);
    } else {
      WrapKeeps(v, size, false);
      WrapKeeps(v, 8, false);
    }
  }

  /** An `unsafe.Pointer` destination receives the symbol's address itself:
      memory is not read. */
  lemma UnsafePointerDestination(arch: Arch, addr: nat, t: GoType, mem1: Mem, mem2: Mem, prep: Ffi.Prep)
    requires t.PointerTo? && t.elem.TypeKind() == UnsafePointer
    ensures LookupC(arch, Success(addr), Holding(t, false), mem1, prep) == Success(PointerValue(Native(addr)))
    ensures LookupC(arch, Success(addr), Holding(t, false), mem1, prep) == LookupC(arch, Success(addr), Holding(t, false), mem2, prep)
  {
  }

  /** Destinations of a kind outside the switch are rejected, naming the
      argument's type, and nothing is stored. */
  lemma OtherKindsRejected(arch: Arch, addr: nat, t: GoType, mem: Mem, prep: Ffi.Prep)
    requires t.PointerTo?
    requires t.elem.TypeKind() in {Invalid, Bool, Array, Chan, Interface, Map, Ptr, Slice, Struct}
    ensures LookupC(arch, Success(addr), Holding(t, false), mem, prep) == Failure(InvalidType(t))
  {
  }

  /** A function destination: an error of `NewFrom` is passed on and nothing
      is stored; otherwise the stored function is bound to the new call
      interface, the symbol's address and the destination's signature. */
  lemma FuncDestination(arch: Arch, addr: nat, t: GoType, mem: Mem, prep: Ffi.Prep)
    requires t.PointerTo? && t.elem.FuncOf?
    ensures var r := LookupC(arch, Success(addr), Holding(t, false), mem, prep);
      var c := Ffi.NewFrom(t.elem, prep).cif;
      && (r.Failure? <==> c.Failure?)
      && (c.Failure? ==> r.error == FfiError(c.error))
      && (c.Success? ==> r.value == FuncValue(Bound(c.value, Native(addr), t.elem.sig)))
  {
  }

  /** A call through a bound function, as written, hands `ffi_call` a
      one-entry argument array whatever the arity: for no arguments it holds
      nil, otherwise only the address of the first argument's copy. */
  lemma AsWrittenPassesOneSlot(b: Bound, input: seq<Value>, native: Native)
    ensures var r := InvokeAsWritten(b, input, native);
      && |input| == 0 ==> r.call.avalue == Some([Nil])
    ensures var r := InvokeAsWritten(b, input, native);
      && |input| > 0 ==> r.call.avalue == Some([ArgCopy(0)]) && ArgSlots.Deref(r.slots, ArgCopy(0)) == Some(input[0])
  {
  }

  /** The destination type `*func(int32, int32) int32`. */
  function TwoIntParams(): GoType {
    PointerTo(FuncOf(Sig([Int32, Int32], [Int32])))
  }

  /** A two-argument call as written reaches `ffi_call` with one argument
      pointer although the call interface describes two. */
  lemma AsWrittenDropsSecondArgument(native: Native)
    ensures var r := LookupC(Arch64, Success(4096), Holding(TwoIntParams(), false), (a: nat) => 0, (q: Libffi.CifRequest) => Ffi.Ok);
      && r.Success? && r.value.FuncValue?
      && |Ffi.ArgTypes(r.value.fn.cif)| == 2 && r.value.fn.cif.c.nargs == 2
      && |InvokeAsWritten(r.value.fn, [IntValue(Int32, 1), IntValue(Int32, 2)], native).call.avalue.value| == 1
  {
    assert Ffi.Valid(Int32);
    FuncDestination(Arch64, 4096, TwoIntParams(), (a: nat) => 0, (q: Libffi.CifRequest) => Ffi.Ok);
  }

  /** For a one-argument function the body as written and the corrected
      body make the same `ffi_call` request: the first slot is then the
      whole slot array, so a one-argument binding cannot show the
      difference. */
  lemma OneArgumentCallsAgree(b: Bound, x: Value, native: Native)
    ensures InvokeAsWritten(b, [x], native).call == Invoke(b, [x], native).call
  {
    var slots := ArgSlots.NewArgsFrom([x]);
    assert ArgSlots.Slots(slots) == [ArgSlots.C(slots)];
  }

  /** Once binding has succeeded, a call with one value per parameter hands
      `ffi_call` exactly one pointer per entry of the call interface's
      argument array, each designating the copy of its own argument. */
  lemma InvokeMatchesArity(arch: Arch, addr: nat, t: GoType, mem: Mem, prep: Ffi.Prep, input: seq<Value>, native: Native)
    requires t.PointerTo? && t.elem.FuncOf?
    requires LookupC(arch, Success(addr), Holding(t, false), mem, prep).Success?
    requires |input| == |t.elem.sig.params|
    ensures var b := LookupC(arch, Success(addr), Holding(t, false), mem, prep).value.fn;
      var r := Invoke(b, input, native);
      && (r.call.avalue.None? <==> Ffi.ArgTypes(b.cif) == [])
      && (r.call.avalue.Some? ==> |r.call.avalue.value| == |Ffi.ArgTypes(b.cif)|)
      && (r.call.avalue.Some? ==> forall i :: 0 <= i < |input| ==> ArgSlots.Deref(r.slots, r.call.avalue.value[i]) == Some(input[i]))
  {
    FuncDestination(arch, addr, t, mem, prep);
  }

  /** A two-result signature binds, yet the `MakeFunc` body returns an
      empty list for every call. reflect rejects a body that returns fewer
      values than the signature has results, so every call of the bound
      function panics. */
  lemma TwoResultsReturnNothing(arch: Arch, addr: nat, t: GoType, mem: Mem, prep: Ffi.Prep, input: seq<Value>, native: Native)
    requires t.PointerTo? && t.elem.FuncOf? && |t.elem.sig.results| == 2
    requires LookupC(arch, Success(addr), Holding(t, false), mem, prep).Success?
    ensures var b := LookupC(arch, Success(addr), Holding(t, false), mem, prep).value.fn;
      b.sig == t.elem.sig && InvokeAsWritten(b, input, native).results == []
  {
    FuncDestination(arch, addr, t, mem, prep);
  }
}

=== FILE: types.dfy ===
/** The descriptor table of the ffi package: one named Go value per C type
    the package can describe, each pairing the C spelling with the libffi
    descriptor for it. */
module Types {
  import Libffi

  /** A C type: its spelling and its libffi descriptor. */
  datatype Type = Type(name: string, c: Libffi.Descriptor)

  const Void := Type("void", Libffi.Void)

  const Uchar := Type("unsigned char", Libffi.Uchar)
  const Ushort := Type("unsigned short", Libffi.Ushort)
  const Uint := Type("unsigned int", Libffi.Uint)
  const Ulong := Type("unsigned long", Libffi.Ulong)

  const Char := Type("char", Libffi.Schar)
  const Short := Type("short", Libffi.Sshort)
  const Int := Type("int", Libffi.Sint)
  const Long := Type("long", Libffi.Slong)

  const Uint8 := Type("uint8_t", Libffi.Uint8)
  const Uint16 := Type("uint16_t", Libffi.Uint16)
  const Uint32 := Type("uint32_t", Libffi.Uint32)
  const Uint64 := Type("uint64_t", Libffi.Uint64)

  const Int8 := Type("int8_t", Libffi.Sint8)
  const Int16 := Type("int16_t", Libffi.Sint16)
  const Int32 := Type("int32_t", Libffi.Sint32)
  const Int64 := Type("int64_t", Libffi.Sint64)

  const Float32 := Type("float32", Libffi.Float)
  const Float64 := Type("float64", Libffi.Double)

  const UnsafePointer := Type("void*", Libffi.Pointer)

  /** Every descriptor the package defines, in declaration order. */
  const Table: seq<Type> := [
    Void,
    Uchar, Ushort, Uint, Ulong,
    Char, Short, Int, Long,
    Uint8, Uint16, Uint32, Uint64,
    Int8, Int16, Int32, Int64,
    Float32, Float64,
    UnsafePointer
  ]

  /** The table has twenty entries, from `void` to `void*`, and no two
      entries are the same: each C spelling names exactly one entry. The
      descriptors are not claimed distinct, since libffi defines the
      C-named ones as aliases of the fixed-width globals. */
  lemma TableShape()
    ensures |Table| == 20
    ensures Table[0] == Type("void", Libffi.Void) && Table[19] == Type("void*", Libffi.Pointer)
    ensures forall i, j :: 0 <= i < j < |Table| ==> Table[i] != Table[j]
  {
    NamesDistinct();
  }

  /** No two table entries share a C spelling. */
  lemma NamesDistinct()
    ensures forall i, j :: 0 <= i < j < |Table| ==> Table[i].name != Table[j].name
  {
  }
}

=== FILE: wrappers.dfy ===
/** Failure-carrying result types shared by every module of the model. */
module Wrappers {

  /** A nullable value: `None` stands for Go's nil. */
  datatype Option<+T> = None | Some(value: T)

  /** Either a value or the error (or panic) that replaced it. */
  datatype Result<+T, +E> = Success(value: T) | Failure(error: E)
}
